=== FILE: README.md ===
# WeatherAPI core, modelled in Dafny

The weather dashboard gets a five-day, three-hourly forecast from OpenWeatherMap. It
flattens each forecast entry into one table row, lists the hours a chosen day has data
for, and offers a fixed table of five cities. This project models those three parts of
`WeatherAPI` and proves properties about them.

- `common.dfy` (module `Common`): decoded JSON (`Json`, `Obj`), the three kinds of failure
  the client lets escape (`Error`), and a failure-compatible `Result`.
- `forecast.dfy` (module `Forecast`): the entry loop of `get_forecast`.
  - The methods `ProcessEntry` and `GetForecast` rewrite each entry step by step:
    `dict.update` is the right-biased union `d + g` and `del` is `d - {k}`. They are
    proved equal to the specification functions `FlattenEntry` and `Forecast`.
  - `Layered` is a second, key-by-key definition of the flat row, with no update
    sequence. `FlattenIsLayered` shows that the update sequence matches it whenever no
    group supplies the name of a group merged after it, nor `weather`, and `weather[0]`
    carries no `weather` key of its own (`NoShadowing`). `LayeredAgrees` relates the
    update sequence to `Layered` for every entry, applied to the groups as the provider
    sent them (`Grouped`).
- `hours.dfy` (module `Hours`): `get_hours`.
  - The class `Frame` holds the DataFrame's rows. Its method `Hours` replaces the column
    by its parsed date-times and returns the distinct hours on the given day. The hours
    come in the order of their first rows, not sorted by value (`DistinctHoursOrder`,
    `HoursInRowOrder`).
  - Reading a non-null value as a date-time is the parameter `decode`. It gives what
    `pd.to_datetime` reads the value as (`Reading`): a date-time, NaT (an empty string,
    `"NaT"`), or nothing it can parse, which makes the whole conversion fail.
- `cities.dfy` (module `Cities`): `get_cities`, a constant table.
- `roundtrip.dfy` (module `RoundTrip`): `get_forecast` on a two-entry response, then
  `get_hours` on its `dt_txt` column, the way the dashboard chains them
  (weatherDash.py:69-71).

The model follows the code in these places:
- A row is not free of the group names. The first `weather` element of real provider data
  has its own `main` key (the condition label), so `main` is back in the row after the
  `main` group was deleted. `GroupNamesGone` and `OpenWeatherEntry` show this.
- A non-list `list` is not always an error: `for d in ...` over an empty dict or an
  empty string simply yields no rows. A non-empty one yields strings, and `d.update`
  then raises AttributeError, since a string has no `update` method.
- `weather[0]` is re-read from the entry on every pass of the weather loop. So the loop
  is a single merge if `weather[0]` carries no `weather` key of its own
  (`WeatherLoopMergesOnce`). `WeatherRereadCounterexample` shows the difference.
- `dict.update` also accepts an empty list or an empty string as an argument, and
  then adds nothing (`UpdateFields`).
- Longitudes in the city table are positive, as weatherAPI.py writes them.

## Model

| member | source | states |
|---|---|---|
| Forecast.GetForecast | weatherAPI.py:33-45 | The entry loop returns exactly what `Forecast` specifies: the entries are processed in order and an exception stops the loop. |
| Forecast.ProcessEntry | weatherAPI.py:36-42 | Updating one entry in place (the four group merges and deletions, the weather loop, deleting `weather`) gives exactly `FlattenEntry`. This includes every error path. |
| Forecast.FlattenAllRows | weatherAPI.py:33-45 | Of the entry loop `FlattenAll`: rows exist exactly when every entry flattens. Then there is one row per entry and row i comes from entry i, so provider order is kept. Otherwise the error is that of the first failing entry, and every entry before it flattens. |
| Forecast.FlattenEntry | weatherAPI.py:36-42 | A row never contains `weather`. An entry that is not a dict fails. |
| Forecast.Entries | weatherAPI.py:34 | Entries exist only when the response is an object with a `list` key; a missing `list` raises KeyError. A JSON list gives its elements in order. Any other `list` value succeeds exactly when it is an empty dict or an empty string, and then gives no entries. |
| Forecast.UpdateFields | weatherAPI.py:37-41 | `d.update(v)` accepts exactly a dict, an empty list or an empty string. A dict contributes its own fields; the empty iterables contribute none. |
| Forecast.IterationCount | weatherAPI.py:40 | `for i in v` runs over a list, a string or a dict, and over nothing else. On a list it runs once per element. |
| Forecast.FirstWeather | weatherAPI.py:41 | `d['weather'][0]` raises KeyError when `weather` is absent. It succeeds exactly on a non-empty list, and then gives the list's first element. |
| Forecast.WeatherLoop | weatherAPI.py:40-41 | The weather loop only adds keys. Once it has run at least once, `weather` was present. |
| Forecast.MergeGroup | weatherAPI.py:37-38 | After `update` and `del`, the group's name is gone and every other key of the entry is still present. |
| Forecast.WeatherStep | weatherAPI.py:41 | One weather merge never removes a key. |
| Forecast.MergeGroupsStaysErr | weatherAPI.py:36-38 | Once a group merge raises, the rest of the group loop gives that same error. |
| Forecast.WeatherLoopStaysErr | weatherAPI.py:40-41 | Once a weather merge raises, the rest of the weather loop gives that same error. |
| Forecast.FlattenAllStaysErr | weatherAPI.py:33-45 | Once an entry raises, the result of the whole loop is that error. |
| Forecast.FlattenAllOk | weatherAPI.py:33-45 | For any loop body, the entry loop `FlattenAll` succeeds when every entry does. Then it has one row per entry, and row i is entry i's. |
| Forecast.FirstFailing | weatherAPI.py:33-45 | When the loop raises, some entry raises that same error and every entry before it succeeds. |
| Forecast.WeatherLoopMergesOnce | weatherAPI.py:40-41 | For a non-empty `weather` whose first element has no `weather` key, any number k ≥ 1 of passes equals one merge of `weather[0]`. |
| Forecast.WeatherRereadCounterexample | weatherAPI.py:40-41 | When `weather[0]` has its own `weather` key, two passes differ from one: the second pass merges a field the first did not. |
| Forecast.GroupedLayers | weatherAPI.py:36-38 | When no group shadows a later one (`NoShadowing`) and every group is present and mergeable, the group loop `MergeGroups` merges each group exactly as the provider sent it. |
| Forecast.WeatherPhase | weatherAPI.py:40-41 | When `weather[0]` has no `weather` key, a usable `weather` value makes the weather loop a single merge of `weather[0]`. An empty value adds nothing. |
| Forecast.FlattenWellFormed | weatherAPI.py:36-42 | When no group shadows a later one (`NoShadowing`), a well-formed entry flattens to the grouped entry, plus `weather[0]`, minus `weather`. |
| Forecast.LayeredKeysAgree | weatherAPI.py:36-42 | The update-and-delete sequence, applied to the groups as the provider sent them (`Grouped`), leaves exactly the keys that `LayeredKeys` lists. |
| Forecast.LayeredAgrees | weatherAPI.py:36-42 | The update-and-delete sequence, applied to the groups as the provider sent them (`Grouped`), gives the same map as the key-by-key reference `Layered`. |
| Forecast.FlattenIsLayered | weatherAPI.py:36-42 | Without shadowing, flattening succeeds exactly for well-formed entries, and then gives `Layered`. In `Layered` each key carries the value of the last layer that supplies it, and an empty `weather` supplies nothing. |
| Forecast.FlattenFailsWhenIllFormed | weatherAPI.py:36-42 | When no group shadows a later one (`NoShadowing`), a missing or unmergeable group, a missing `weather`, or an unusable `weather` makes flattening fail. |
| Forecast.GroupsFailWhenUnusable | weatherAPI.py:36-38 | When no group shadows a later one (`NoShadowing`), a missing or unmergeable group makes the group loop raise. |
| Forecast.WeatherFieldsWin | weatherAPI.py:40-41 | When no group shadows a later one (`NoShadowing`), every field of `weather[0]` is in the row with `weather[0]`'s value. |
| Forecast.LastGroupWins | weatherAPI.py:36-38 | When no group shadows a later one (`NoShadowing`) and `weather[0]` does not supply the key, a group's field other than the group's own name carries the value of the last group supplying it, overriding a top-level value. |
| Forecast.UntouchedKeyKept | weatherAPI.py:36-42 | When no group shadows a later one (`NoShadowing`), a top-level key other than `main`, `sys`, `wind`, `clouds` and `weather`, that no group and not `weather[0]` mentions, keeps its original value. |
| Forecast.GroupNamesGone | weatherAPI.py:36-42 | When no group shadows a later one (`NoShadowing`), each of `main`, `sys`, `wind`, `clouds` is in the row exactly when a later group or `weather[0]` supplies it again. |
| Forecast.SampleEntryLayers | weatherAPI.py:36-42 | The sample provider entry is well-formed and unshadowed. Its layers are listed. |
| Forecast.OpenWeatherEntry | weatherAPI.py:36-42 | On a typical provider entry, the row has `main == "Rain"`, which `weather[0]` brings back after the `main` group was deleted. It also has the group's `temp`. |
| Forecast.SampleEntryStamp | weatherAPI.py:36-42 | That entry's row keeps its untouched `dt_txt`. |
| Forecast.SampleEntryGroupsGone | weatherAPI.py:36-42 | That entry's row has no `sys`, `wind` or `clouds`. |
| Hours.Tabulate | weatherAPI.py:48 | The table has one row per record, with the same keys and the same values. |
| Hours.Frame.FromRecords | weatherAPI.py:48 | The frame's rows are the tabulated records. |
| Hours.ParseCell | weatherAPI.py:78 | Parsing a cell fails exactly when the cell is present, not null, and unparseable. A missing, null or NaT cell becomes NaT, and so does a value read as NaT (such as an empty string). A date-time is kept. A value read as a date-time becomes that date-time. |
| Hours.ConvertColumn | weatherAPI.py:78 | The conversion fails exactly when the column is absent from every row, or some cell fails to parse. The error is KeyError for the missing column and a parse failure otherwise. On success the row count is kept. |
| Hours.ParseRows | weatherAPI.py:78 | Converting the column cell by cell keeps the row count, and its only failure is a parse failure. |
| Hours.ParseRowsSpec | weatherAPI.py:78 | The column conversion `ParseRows` fails exactly when some cell fails. Otherwise it keeps the row count and replaces only that column, in every row. |
| Hours.NotATimeOnNoDay | weatherAPI.py:78-79 | A cell read as NaT, such as an empty `dt_txt`, does not make the conversion fail: its row holds NaT and is on no day. |
| Hours.ParseRowsUnchanged | weatherAPI.py:78 | Converting a column whose every cell is already in converted form returns the rows unchanged. |
| Hours.ConvertColumnIdempotent | weatherAPI.py:78 | Converting an already converted column changes nothing. So a second `get_hours` on the same frame sees the same table. |
| Hours.Frame.Hours | weatherAPI.py:78-82 | A missing column fails with KeyError and an unparseable cell fails; in both cases the frame is unchanged. Otherwise the frame's column is replaced by its conversion and the result is the distinct hours on `day`. |
| Hours.MatchedHours | weatherAPI.py:79-80 | The filter yields at most one hour per row. Its partners `MatchedHoursCount` and `MatchedHoursOrder` state it exactly: one hour per row on `day`, in row order. |
| Hours.MatchedHoursCount | weatherAPI.py:79-80 | The filter lists one hour per row on `day`. |
| Hours.MatchedHoursOrder | weatherAPI.py:79-80 | The filter keeps row order: of two hours of rows on `day`, the one whose first row on `day` comes first (`FirstRow`) also comes first in the filtered list, and only that one. |
| Hours.FirstRow | weatherAPI.py:79-80 | The row returned is on `day` and has the hour, and no earlier row on `day` has it. |
| Hours.MatchedHoursSpec | weatherAPI.py:79-80 | The filter is sound and complete: an hour is listed exactly when some row on `day` has it. |
| Hours.FirstIndex | weatherAPI.py:80 | The position returned holds the value, and the value does not occur before it. |
| Hours.FirstIndexAppend | weatherAPI.py:80 | Appending a value does not move the first occurrence of a value already present. |
| Hours.Unique | weatherAPI.py:80 | `unique` never yields more values than it was given, and only values it was given. |
| Hours.UniqueSpec | weatherAPI.py:80 | `unique` keeps exactly the values of its input, each once, ordered by first appearance. |
| Hours.DistinctHoursSpec | weatherAPI.py:79-82 | The hours `DistinctHours` returns are exactly the hours of the rows on `day`. Each is listed once, they come in the order they first appear in the filtered list `MatchedHours` (`DistinctHoursOrder` restates that order in terms of rows), and the list is empty exactly when no row is on `day`. |
| Hours.DistinctHoursOrder | weatherAPI.py:79-82 | Of any two returned hours, the earlier one's first row on `day` comes before the later one's. |
| Hours.HoursInRowOrder | weatherAPI.py:79-82 | Rows at 06:00, 03:00 and 06:00 on 1 May give [6, 3]: row order, each hour once, not sorted. |
| Hours.SampleConverts | weatherAPI.py:78 | Three text timestamps convert to the three date-times they spell. |
| Hours.SampleHours | weatherAPI.py:79-80 | With rows at 03:00 and 06:00 on 1 May and 00:00 on 2 May, the hours for 1 May are [3, 6]. |
| Hours.TwoHoursOnTheDay | weatherAPI.py:78-82 | End to end on those text rows: the conversion succeeds, 1 May gives [3, 6], and a day without rows gives []. |
| Cities.KnownCities | weatherAPI.py:58-65 | Exactly five cities, the ones get_cities lists. Boston and Tokyo have the coordinates weatherAPI.py gives them. Every coordinate is a valid latitude and longitude, and no two cities share one. |
| RoundTrip.MockRows | weatherAPI.py:33-45 | A two-entry response gives two rows, carrying the entries' stamps in provider order. |
| RoundTrip.StampedConverts | weatherAPI.py:48-78 | Two records stamped 03:00 and 06:00 on 1 May, whatever their other fields, tabulate and convert to rows holding those date-times. |
| RoundTrip.StampedHours | weatherAPI.py:79-82 | Two rows at 03:00 and 06:00 on 1 May give the hours [3, 6], in row order. |
| RoundTrip.ForecastThenHours | weatherAPI.py:33-82 | `get_forecast`, then `get_hours` on `dt_txt` for the entries' day, returns exactly the two hours in provider order. |

## Left out

- The HTTP request, URL assembly and the API key (weatherAPI.py:24-27). They are network I/O. The model takes the decoded response as its input.
- `json.loads` (weatherAPI.py:30). It is library parsing, so the model starts from a `Json` value.
- pandas internals: building a DataFrame (weatherAPI.py:48) is modelled only as a sequence of rows, one per record. Column dtypes, NaN filling of absent cells and the index are not modelled; an absent cell reads as missing, and `pd.to_datetime` turns it into NaT.
- `pd.to_datetime`'s text parsing, and turning the `day` argument into a date (weatherAPI.py:78-79). Both are library behaviour. The first is the parameter `decode`, which says per value whether it reads as a date-time, as NaT or not at all; the second is given as a `Date`. So `Frame.Hours` cannot show that an unparseable `day` raises only after the column has already been replaced (line 79 runs after line 78); its promise that a failure leaves the table untouched covers only the failures the model has, a missing column and an unparseable cell.
- Hours.ParseCell: `decode` is applied to each cell on its own. pandas 2 instead infers one format from the first non-null cell and rejects later cells that do not match it, so a column mixing formats can fail where the model succeeds.
- Time zones, minutes and seconds. A timestamp is only a date and an hour, which is all that `.dt.date` and `.dt.hour` read.
- The exact Python exception classes. They are collapsed into `MissingKey` (a KeyError on a string key), `BadValue` (AttributeError, TypeError, ValueError, IndexError, and KeyError on an integer index) and `Unparseable` (a failed date parse).
- Forecast.UpdateFields: `dict.update` with a non-empty list of key/value pairs is treated as an error, although Python would accept well-shaped pairs. Provider groups are always objects.
- Floating-point behaviour. Numbers are `real` and no arithmetic is done on them.
- The dashboard UI and its callbacks (weatherDash.py). They are presentation only; `RoundTrip` models just the one chained call.

=== FILE: cities.dfy ===
/** The fixed table of cities the dashboard offers, each with the coordinate passed on to
    the forecast request. */
module Cities {

  /** A latitude and a longitude in degrees, as weatherAPI.py writes them. */
  datatype Coordinate = Coordinate(lat: real, lon: real)

  /** A coordinate that names a point on the globe. */
  predicate OnGlobe(c: Coordinate)
  {
    -90.0 <= c.lat <= 90.0 && -180.0 <= c.lon <= 180.0
  }

  /** The five known cities. Every call yields the same table, since it is a literal. */
  function KnownCities(): (m: map<string, Coordinate>)
    ensures m.Keys == {"Boston", "New York City", "San Francisco", "Tokyo", "Dubai"}
    ensures |m| == 5
    ensures m["Boston"] == Coordinate(42.3601, 71.0589)
    ensures m["Tokyo"] == Coordinate(35.6764, 139.6500)
    ensures forall city | city in m :: OnGlobe(m[city])
    // no two cities share a coordinate, so a forecast's city is known from its coordinate
    ensures forall a, b | a in m && b in m && m[a] == m[b] :: a == b
  {
    map[
      "Boston" := Coordinate(42.3601, 71.0589),
      "New York City" := Coordinate(40.7128, 74.0060),
      "San Francisco" := Coordinate(37.7749, 122.4194),
      "Tokyo" := Coordinate(35.6764, 139.6500),
      "Dubai" := Coordinate(25.2048, 55.2708)
    ]
  }
}

=== FILE: common.dfy ===
/** Values shared by the forecast client: decoded JSON, the errors the client can raise,
    and the failure-compatible wrappers used to propagate them. */
module Common {

  /** A JSON value as json.loads decodes it. Numbers are kept as reals; no arithmetic is
      done on them anywhere in the client. */
  datatype Json =
    | JNull
    | JBool(b: bool)
    | JNum(n: real)
    | JStr(s: string)
    | JArr(elems: seq<Json>)
    | JObj(fields: map<string, Json>)

  /** A decoded JSON object, i.e. a Python dict with string keys. */
  type Obj = map<string, Json>

  /** The exceptions the client lets escape. */
  datatype Error =
    | MissingKey(key: string)  // KeyError on a string key
    | BadValue                 // AttributeError, TypeError, ValueError, IndexError, or KeyError on an integer index
    | Unparseable              // pandas could not read a cell as a date-time

  datatype Result<T> = Ok(value: T) | Err(error: Error) {
    predicate IsFailure() {
      Err?
    }

    function PropagateFailure<U>(): Result<U>
      requires Err?
    {
      Err(error)
    }

    function Extract(): T
      requires Ok?
    {
      value
    }
  }
}

=== FILE: forecast.dfy ===
/** The flattening half of WeatherAPI.get_forecast: every entry of the provider's `list`
    becomes one flat row. The nested groups `main`, `sys`, `wind` and `clouds` are merged
    into the entry and deleted, in that order; then `weather[0]` is merged once per element
    of `weather`, and `weather` is deleted. Merging is Python's dict.update, a right-biased
    union (`d + g`), and deleting is `d - {k}`. */
module Forecast {
  import opened Common

  /** The nested groups merged into each entry, in the order they are merged. */
  const Groups: seq<string> := ["main", "sys", "wind", "clouds"]

  /** Every key the flattening deletes from an entry. */
  const Structural: set<string> := {"main", "sys", "wind", "clouds", "weather"}

  // ---------------------------------------------------------------------------
  // The flattening, one step at a time, as get_forecast performs it
  // ---------------------------------------------------------------------------

  /** The fields that `d.update(v)` merges: a mapping contributes its fields and an empty
      iterable contributes nothing; anything else makes update raise. */
  function UpdateFields(v: Json): (r: Result<Obj>)
    ensures r.Ok? <==> v.JObj? || v == JArr([]) || v == JStr("")
    ensures v.JObj? ==> r == Ok(v.fields)
    ensures r.Ok? && !v.JObj? ==> r.value == map[]
  {
    match v
    case JObj(m) => Ok(m)
    case JArr(es) => if es == [] then Ok(map[]) else Err(BadValue)
    case JStr(s) => if s == "" then Ok(map[]) else Err(BadValue)
    case _ => Err(BadValue)
  }

  /** One pass of the `for feat` loop: `d.update(d[feat])` then `del d[feat]`. */
  function MergeGroup(d: Obj, feat: string): (r: Result<Obj>)
    ensures r.Ok? ==> feat !in r.value
    ensures r.Ok? ==> forall k | k in d && k != feat :: k in r.value
  {
    if feat !in d then Err(MissingKey(feat))
    else
      var g :- UpdateFields(d[feat]);
      Ok((d + g) - {feat})
  }

  /** The `for feat` loop after its first `n` passes. */
  function MergeGroups(d: Obj, n: nat): Result<Obj>
    requires n <= |Groups|
  {
    if n == 0 then Ok(d)
    else
      var d' :- MergeGroups(d, n - 1);
      MergeGroup(d', Groups[n - 1])
  }

  /** `d['weather'][0]`, read afresh from the entry as it currently stands. A non-empty
      string would yield a one-character string, which update then rejects; the model
      reports that failure here already. */
  function FirstWeather(d: Obj): (r: Result<Json>)
    ensures "weather" !in d ==> r == Err(MissingKey("weather"))
    ensures r.Ok? <==> "weather" in d && d["weather"].JArr? && d["weather"].elems != []
    ensures r.Ok? ==> r.value == d["weather"].elems[0]
  {
    if "weather" !in d then Err(MissingKey("weather"))
    else match d["weather"]
      case JArr(ws) => if ws == [] then Err(BadValue) else Ok(ws[0])
      case _ => Err(BadValue)
  }

  /** One pass of `for i in d['weather']`: `d.update(d['weather'][0])`. */
  function WeatherStep(d: Obj): (r: Result<Obj>)
    ensures r.Ok? ==> d.Keys <= r.value.Keys
  {
    var w :- FirstWeather(d);
    var g :- UpdateFields(w);
    Ok(d + g)
  }

  /** The weather loop after its first `n` passes. */
  function WeatherLoop(d: Obj, n: nat): (r: Result<Obj>)
    ensures r.Ok? ==> d.Keys <= r.value.Keys
    ensures r.Ok? && n > 0 ==> "weather" in d
  {
    if n == 0 then Ok(d)
    else
      var d' :- WeatherLoop(d, n - 1);
      WeatherStep(d')
  }

  /** How many times `for i in v` runs: the elements of a list, the characters of a
      string, the keys of a dict; any other value is not iterable. */
  function IterationCount(v: Json): (r: Result<nat>)
    ensures r.Ok? <==> v.JArr? || v.JStr? || v.JObj?
    ensures v.JArr? ==> r == Ok(|v.elems|)
  {
    match v
    case JArr(es) => Ok(|es|)
    case JStr(s) => Ok(|s|)
    case JObj(m) => Ok(|m|)
    case _ => Err(BadValue)
  }

  /** The body of the entry loop: the row that one entry becomes. */
  function FlattenEntry(e: Json): (r: Result<Obj>)
    ensures r.Ok? ==> "weather" !in r.value
    ensures !e.JObj? ==> r == Err(BadValue)
  {
    match e
    case JObj(d) =>
      var grouped :- MergeGroups(d, |Groups|);
      if "weather" !in grouped then Err(MissingKey("weather"))
      else
        var n :- IterationCount(grouped["weather"]);
        var merged :- WeatherLoop(grouped, n);
        Ok(merged - {"weather"})
    case _ => Err(BadValue)
  }

  /** The entries `for d in weather_dict['list']` visits. Iterating a dict or a string
      yields strings, which have no `update` method, so only an empty one gives no error. */
  function Entries(response: Json): (r: Result<seq<Json>>)
    ensures r.Ok? ==> response.JObj? && "list" in response.fields
    ensures response.JObj? && "list" !in response.fields ==> r == Err(MissingKey("list"))
    ensures response.JObj? && "list" in response.fields && response.fields["list"].JArr? ==>
              r == Ok(response.fields["list"].elems)
    ensures response.JObj? && "list" in response.fields && !response.fields["list"].JArr? ==>
              && (r.Ok? <==> response.fields["list"] in {JObj(map[]), JStr("")})
              && (r.Ok? ==> r.value == [])
  {
    match response
    case JObj(top) =>
      if "list" !in top then Err(MissingKey("list"))
      else (match top["list"]
        case JArr(es) => Ok(es)
        case JObj(m) => if m == map[] then Ok([]) else Err(BadValue)
        case JStr(s) => if s == "" then Ok([]) else Err(BadValue)
        case _ => Err(BadValue))
    case _ => Err(BadValue)
  }

  /** The rows of the entry loop whose body turns an entry into a row with `flatten`,
      stopping at the first entry that raises. */
  function FlattenAll(entries: seq<Json>, flatten: Json -> Result<Obj>): Result<seq<Obj>>
  {
    if entries == [] then Ok([])
    else
      var last := |entries| - 1;
      var rows :- FlattenAll(entries[..last], flatten);
      var row :- flatten(entries[last]);
      Ok(rows + [row])
  }

  /** The list of rows get_forecast hands to pandas. */
  function Forecast(response: Json): Result<seq<Obj>>
  {
    var entries :- Entries(response);
    FlattenAll(entries, FlattenEntry)
  }

  // ---------------------------------------------------------------------------
  // get_forecast's loops
  // ---------------------------------------------------------------------------

  /** Turns one entry into a row by updating it in place, as the body of the entry loop does. */
  method ProcessEntry(e: Json) returns (r: Result<Obj>)
    ensures r == FlattenEntry(e)
  {
    if !e.JObj? {
      return Err(BadValue);
    }
    var d := e.fields;
    for k := 0 to |Groups|
      invariant MergeGroups(e.fields, k) == Ok(d)
    {
      var feat := Groups[k];
      if feat !in d {
        MergeGroupsStaysErr(e.fields, k + 1, |Groups|);
        return Err(MissingKey(feat));
      }
      var fields := UpdateFields(d[feat]);
      if fields.Err? {
        MergeGroupsStaysErr(e.fields, k + 1, |Groups|);
        return Err(fields.error);
      }
      d := (d + fields.value) - {feat};
    }
    if "weather" !in d {
      return Err(MissingKey("weather"));
    }
    var count := IterationCount(d["weather"]);
    if count.Err? {
      return Err(count.error);
    }
    ghost var grouped := d;
    for i := 0 to count.value
      invariant WeatherLoop(grouped, i) == Ok(d)
      invariant "weather" in d
    {
      var weather := d["weather"];
      if !weather.JArr? || weather.elems == [] {
        WeatherLoopStaysErr(grouped, i + 1, count.value);
        return Err(BadValue);
      }
      var fields := UpdateFields(weather.elems[0]);
      if fields.Err? {
        WeatherLoopStaysErr(grouped, i + 1, count.value);
        return Err(fields.error);
      }
      d := d + fields.value;
    }
    return Ok(d - {"weather"});
  }

  /** The entry loop of get_forecast: flattens every entry and appends its row. */
  method GetForecast(response: Json) returns (r: Result<seq<Obj>>)
    ensures r == Forecast(response)
  {
    var entries :- Entries(response);
    var rows: seq<Obj> := [];
    for i := 0 to |entries|
      invariant FlattenAll(entries[..i], FlattenEntry) == Ok(rows)
    {
      var row := ProcessEntry(entries[i]);
      if row.Err? {
        assert entries[..i + 1][..i] == entries[..i];
        FlattenAllStaysErr(entries, FlattenEntry, i + 1);
        return Err(row.error);
      }
      assert entries[..i + 1][..i] == entries[..i];
      rows := rows + [row.value];
    }
    assert entries[..|entries|] == entries;
    return Ok(rows);
  }

  // ---------------------------------------------------------------------------
  // Errors persist through the remaining passes of a loop
  // ---------------------------------------------------------------------------

  lemma {:induction false} MergeGroupsStaysErr(d: Obj, k: nat, n: nat)
    requires k <= n <= |Groups|
    requires MergeGroups(d, k).Err?
    ensures MergeGroups(d, n) == MergeGroups(d, k)
    decreases n
  {
    if n > k {
      MergeGroupsStaysErr(d, k, n - 1);
    }
  }

  lemma {:induction false} WeatherLoopStaysErr(d: Obj, k: nat, n: nat)
    requires k <= n
    requires WeatherLoop(d, k).Err?
    ensures WeatherLoop(d, n) == WeatherLoop(d, k)
    decreases n
  {
    if n > k {
      WeatherLoopStaysErr(d, k, n - 1);
    }
  }

  lemma {:induction false} FlattenAllStaysErr(entries: seq<Json>, flatten: Json -> Result<Obj>, k: nat)
    requires k <= |entries|
    requires FlattenAll(entries[..k], flatten).Err?
    ensures FlattenAll(entries, flatten) == FlattenAll(entries[..k], flatten)
    decreases |entries| - k
  {
    if k == |entries| {
      assert entries[..k] == entries;
    } else {
      assert entries[..k + 1][..k] == entries[..k];
      assert FlattenAll(entries[..k + 1], flatten) == FlattenAll(entries[..k], flatten);
      FlattenAllStaysErr(entries, flatten, k + 1);
    }
  }

  /** One row per entry, row i made from entry i; when some entry raises, the error is
      that of the first entry that does. */
  lemma FlattenAllRows(entries: seq<Json>)
    ensures FlattenAll(entries, FlattenEntry).Ok? <==>
              forall i | 0 <= i < |entries| :: FlattenEntry(entries[i]).Ok?
    ensures FlattenAll(entries, FlattenEntry).Ok? ==>
              && |FlattenAll(entries, FlattenEntry).value| == |entries|
              && forall i | 0 <= i < |entries| ::
                   FlattenEntry(entries[i]) == Ok(FlattenAll(entries, FlattenEntry).value[i])
    ensures FlattenAll(entries, FlattenEntry).Err? ==> exists i | 0 <= i < |entries| ::
              && FlattenEntry(entries[i]) == Err(FlattenAll(entries, FlattenEntry).error)
              && forall j | 0 <= j < i :: FlattenEntry(entries[j]).Ok?
  {
    FlattenAllOk(entries, FlattenEntry);
    if FlattenAll(entries, FlattenEntry).Err? {
      var i := FirstFailing(entries, FlattenEntry);
    }
  }

  /** The loop succeeds when every entry does, and then row i is entry i's. */
  lemma {:induction false} FlattenAllOk(entries: seq<Json>, flatten: Json -> Result<Obj>)
    ensures FlattenAll(entries, flatten).Ok? ==>
              && |FlattenAll(entries, flatten).value| == |entries|
              && forall i | 0 <= i < |entries| :: flatten(entries[i]) == Ok(FlattenAll(entries, flatten).value[i])
    ensures (forall i | 0 <= i < |entries| :: flatten(entries[i]).Ok?) ==> FlattenAll(entries, flatten).Ok?
    decreases |entries|
  {
    if entries != [] {
      var last := |entries| - 1;
      var init := entries[..last];
      FlattenAllOk(init, flatten);
      assert forall i | 0 <= i < last :: init[i] == entries[i];
      var prefix := FlattenAll(init, flatten);
      if prefix.Ok? && flatten(entries[last]).Ok? {
        var rows := prefix.value + [flatten(entries[last]).value];
        assert FlattenAll(entries, flatten) == Ok(rows);
        forall i | 0 <= i < |entries|
          ensures flatten(entries[i]) == Ok(rows[i])
        {
          if i < last {
            assert rows[i] == prefix.value[i] && entries[i] == init[i];
          }
        }
      }
    }
  }

  /** The entry whose error the loop reports: it fails with that error and every entry
      before it flattens. */
  lemma {:induction false} FirstFailing(entries: seq<Json>, flatten: Json -> Result<Obj>) returns (i: nat)
    requires FlattenAll(entries, flatten).Err?
    ensures i < |entries| && flatten(entries[i]) == Err(FlattenAll(entries, flatten).error)
    ensures forall j | 0 <= j < i :: flatten(entries[j]).Ok?
    decreases |entries|
  {
    var last := |entries| - 1;
    var init := entries[..last];
    assert forall j | 0 <= j < last :: init[j] == entries[j];
    if FlattenAll(init, flatten).Err? {
      i := FirstFailing(init, flatten);
    } else {
      FlattenAllOk(init, flatten);
      i := last;
    }
  }

  // ---------------------------------------------------------------------------
  // The repeated weather merge
  // ---------------------------------------------------------------------------

  /** Merging `weather[0]` once per element of a non-empty `weather` list is the same as
      merging it once, provided `weather[0]` does not itself carry a `weather` key. */
  lemma {:induction false} WeatherLoopMergesOnce(d: Obj, n: nat, w: Obj)
    requires "weather" in d && d["weather"].JArr? && d["weather"].elems != []
    requires UpdateFields(d["weather"].elems[0]) == Ok(w)
    requires "weather" !in w
    requires n >= 1
    ensures WeatherLoop(d, n) == Ok(d + w)
  {
    if n > 1 {
      WeatherLoopMergesOnce(d, n - 1, w);
      assert (d + w)["weather"] == d["weather"];
      assert (d + w) + w == d + w;
    }
  }

  /** Without that proviso the loop is not a single merge: the second pass re-reads
      `d['weather'][0]` from the `weather` value the first pass merged in. */
  lemma WeatherRereadCounterexample()
    ensures var inner := map["x" := JNum(1.0)];
            var d := map["weather" := JArr([JObj(map["weather" := JArr([JObj(inner)])]), JNull])];
            && WeatherLoop(d, 1).Ok? && "x" !in WeatherLoop(d, 1).value
            && WeatherLoop(d, 2).Ok? && "x" in WeatherLoop(d, 2).value
  {
  }

  // ---------------------------------------------------------------------------
  // The flattened row as layers: a reference definition
  // ---------------------------------------------------------------------------

  /** The fields group `feat` of the entry contributes (none if it is absent or unusable). */
  function Layer(d: Obj, feat: string): Obj
  {
    if feat in d && UpdateFields(d[feat]).Ok? then UpdateFields(d[feat]).value else map[]
  }

  /** The fields of `weather[0]` when `weather` is a non-empty list (none otherwise). */
  function WeatherLayer(d: Obj): Obj
  {
    if "weather" in d && d["weather"].JArr? && d["weather"].elems != []
       && UpdateFields(d["weather"].elems[0]).Ok?
    then UpdateFields(d["weather"].elems[0]).value
    else map[]
  }

  /** No group carries the name of a group merged after it, or `weather`, and `weather[0]`
      carries no `weather`: every group is then read as the provider sent it. */
  predicate NoShadowing(d: Obj)
  {
    && Layer(d, "main").Keys !! {"sys", "wind", "clouds", "weather"}
    && Layer(d, "sys").Keys !! {"wind", "clouds", "weather"}
    && Layer(d, "wind").Keys !! {"clouds", "weather"}
    && Layer(d, "clouds").Keys !! {"weather"}
    && "weather" !in WeatherLayer(d)
  }

  predicate GroupUsable(d: Obj, feat: string)
  {
    feat in d && UpdateFields(d[feat]).Ok?
  }

  /** A `weather` value the loop gets through: a list whose first element (if any) is
      mergeable, or an empty dict or string. */
  predicate WeatherUsable(v: Json)
  {
    match v
    case JArr(ws) => ws == [] || UpdateFields(ws[0]).Ok?
    case JObj(m) => m == map[]
    case JStr(s) => s == ""
    case _ => false
  }

  /** Every group present and mergeable. */
  predicate GroupsUsable(d: Obj)
  {
    && GroupUsable(d, "main") && GroupUsable(d, "sys")
    && GroupUsable(d, "wind") && GroupUsable(d, "clouds")
  }

  /** Every group present and mergeable, and `weather` present and usable. */
  predicate WellFormed(d: Obj)
  {
    GroupsUsable(d) && "weather" in d && WeatherUsable(d["weather"])
  }

  /** The keys of the flat row: a group's own name survives only when a later layer
      supplies it, and `weather` never survives. */
  function LayeredKeys(d: Obj): set<string>
  {
    (d.Keys - Structural)
    + (Layer(d, "main").Keys - Structural)
    + (Layer(d, "sys").Keys - {"sys", "wind", "clouds", "weather"})
    + (Layer(d, "wind").Keys - {"wind", "clouds", "weather"})
    + (Layer(d, "clouds").Keys - {"clouds", "weather"})
    + (WeatherLayer(d).Keys - {"weather"})
  }

  /** The value of key `k` in the flat row: that of the last layer supplying it. */
  function Pick(d: Obj, k: string): Json
    requires k in LayeredKeys(d)
  {
    if k in WeatherLayer(d) then WeatherLayer(d)[k]
    else if k in Layer(d, "clouds") then Layer(d, "clouds")[k]
    else if k in Layer(d, "wind") then Layer(d, "wind")[k]
    else if k in Layer(d, "sys") then Layer(d, "sys")[k]
    else if k in Layer(d, "main") then Layer(d, "main")[k]
    else d[k]
  }

  /** The flat row, stated key by key rather than as a sequence of updates. */
  function Layered(d: Obj): Obj
  {
    map k | k in LayeredKeys(d) :: Pick(d, k)
  }

  /** The entry after the four group merges, when every group is read as the provider
      sent it. */
  function Grouped(d: Obj): Obj
  {
    var g1 := (d + Layer(d, "main")) - {"main"};
    var g2 := (g1 + Layer(d, "sys")) - {"sys"};
    var g3 := (g2 + Layer(d, "wind")) - {"wind"};
    (g3 + Layer(d, "clouds")) - {"clouds"}
  }

  /** The four group merges, when nothing shadows and every group is usable. */
  lemma GroupedLayers(d: Obj)
    requires NoShadowing(d) && GroupsUsable(d)
    ensures MergeGroups(d, |Groups|) == Ok(Grouped(d))
  {
    var g1 := (d + Layer(d, "main")) - {"main"};
    var g2 := (g1 + Layer(d, "sys")) - {"sys"};
    var g3 := (g2 + Layer(d, "wind")) - {"wind"};
    assert MergeGroups(d, 1) == Ok(g1);
    assert g1["sys"] == d["sys"];
    assert MergeGroups(d, 2) == Ok(g2);
    assert g2["wind"] == d["wind"];
    assert MergeGroups(d, 3) == Ok(g3);
    assert g3["clouds"] == d["clouds"];
  }

  /** The weather loop on an entry whose `weather` value is usable and whose
      `weather[0]` carries no `weather` key: a single merge of `weather[0]`. */
  lemma WeatherPhase(g: Obj)
    requires "weather" in g && WeatherUsable(g["weather"]) && "weather" !in WeatherLayer(g)
    ensures IterationCount(g["weather"]).Ok?
    ensures WeatherLoop(g, IterationCount(g["weather"]).value) == Ok(g + WeatherLayer(g))
  {
    var n := IterationCount(g["weather"]).value;
    if g["weather"].JArr? && g["weather"].elems != [] {
      WeatherLoopMergesOnce(g, n, WeatherLayer(g));
    } else {
      assert n == 0;
      assert g + WeatherLayer(g) == g;
    }
  }

  /** Under the same proviso the entry flattens to the grouped entry with `weather[0]`
      merged once and `weather` deleted. */
  lemma FlattenWellFormed(d: Obj)
    requires NoShadowing(d) && WellFormed(d)
    ensures FlattenEntry(JObj(d)) == Ok((Grouped(d) + WeatherLayer(d)) - {"weather"})
  {
    GroupedLayers(d);
    var grouped := Grouped(d);
    assert "weather" in grouped && grouped["weather"] == d["weather"];
    assert WeatherLayer(grouped) == WeatherLayer(d);
    FlattenFromGrouped(d, grouped);
  }

  lemma FlattenFromGrouped(d: Obj, grouped: Obj)
    requires MergeGroups(d, |Groups|) == Ok(grouped)
    requires "weather" in grouped && WeatherUsable(grouped["weather"])
    requires "weather" !in WeatherLayer(grouped)
    ensures FlattenEntry(JObj(d)) == Ok((grouped + WeatherLayer(grouped)) - {"weather"})
  {
    WeatherPhase(grouped);
  }

  /** The sequence of updates and deletions agrees with the key-by-key definition. */
  lemma LayeredAgrees(d: Obj)
    ensures (Grouped(d) + WeatherLayer(d)) - {"weather"} == Layered(d)
  {
    var row := (Grouped(d) + WeatherLayer(d)) - {"weather"};
    LayeredKeysAgree(d);
    forall k | k in row
      ensures row[k] == Pick(d, k)
    {
    }
  }

  /** The rows have the same keys. */
  lemma LayeredKeysAgree(d: Obj)
    ensures ((Grouped(d) + WeatherLayer(d)) - {"weather"}).Keys == LayeredKeys(d)
  {
    FlatKeysLayered(d);
    LayeredKeysFlat(d);
  }

  lemma FlatKeysLayered(d: Obj)
    ensures ((Grouped(d) + WeatherLayer(d)) - {"weather"}).Keys <= LayeredKeys(d)
  {
    var row := (Grouped(d) + WeatherLayer(d)) - {"weather"};
    forall k | k in row
      ensures k in LayeredKeys(d)
    {
    }
  }

  lemma LayeredKeysFlat(d: Obj)
    ensures LayeredKeys(d) <= ((Grouped(d) + WeatherLayer(d)) - {"weather"}).Keys
  {
    var row := (Grouped(d) + WeatherLayer(d)) - {"weather"};
    forall k | k in LayeredKeys(d)
      ensures k in row
    {
    }
  }

  /** When nothing shadows, flattening succeeds exactly on well-formed entries, and
      then yields the layered row. */
  lemma FlattenIsLayered(d: Obj)
    requires NoShadowing(d)
    ensures FlattenEntry(JObj(d)).Ok? <==> WellFormed(d)
    ensures WellFormed(d) ==> FlattenEntry(JObj(d)) == Ok(Layered(d))
  {
    if WellFormed(d) {
      FlattenWellFormed(d);
      LayeredAgrees(d);
    } else {
      FlattenFailsWhenIllFormed(d);
    }
  }

  lemma FlattenFailsWhenIllFormed(d: Obj)
    requires NoShadowing(d) && !WellFormed(d)
    ensures FlattenEntry(JObj(d)).Err?
  {
    if !GroupsUsable(d) {
      GroupsFailWhenUnusable(d);
      MergeGroupsStaysErr(d, 4, |Groups|);
    } else {
      GroupedLayers(d);
      var grouped := Grouped(d);
      assert ("weather" in grouped) == ("weather" in d);
      if "weather" in d {
        assert grouped["weather"] == d["weather"];
        var count := IterationCount(d["weather"]);
        if count.Ok? {
          assert count.value >= 1;
          assert WeatherLoop(grouped, 1).Err?;
          WeatherLoopStaysErr(grouped, 1, count.value);
        }
      }
    }
  }

  /** The first unusable group makes the group loop raise. */
  lemma GroupsFailWhenUnusable(d: Obj)
    requires NoShadowing(d) && !GroupsUsable(d)
    ensures MergeGroups(d, 4).Err?
  {
    assert MergeGroups(d, 1) == MergeGroup(d, "main");
    if !GroupUsable(d, "main") {
      MergeGroupsStaysErr(d, 1, 4);
      return;
    }
    var g1 := (d + Layer(d, "main")) - {"main"};
    assert MergeGroups(d, 1) == Ok(g1);
    assert ("sys" in g1) == ("sys" in d) && ("sys" in d ==> g1["sys"] == d["sys"]);
    assert MergeGroups(d, 2) == MergeGroup(g1, "sys");
    if !GroupUsable(d, "sys") {
      MergeGroupsStaysErr(d, 2, 4);
      return;
    }
    var g2 := (g1 + Layer(d, "sys")) - {"sys"};
    assert MergeGroups(d, 2) == Ok(g2);
    assert ("wind" in g2) == ("wind" in d) && ("wind" in d ==> g2["wind"] == d["wind"]);
    assert MergeGroups(d, 3) == MergeGroup(g2, "wind");
    if !GroupUsable(d, "wind") {
      MergeGroupsStaysErr(d, 3, 4);
      return;
    }
    var g3 := (g2 + Layer(d, "wind")) - {"wind"};
    assert MergeGroups(d, 3) == Ok(g3);
    assert ("clouds" in g3) == ("clouds" in d) && ("clouds" in d ==> g3["clouds"] == d["clouds"]);
    assert MergeGroups(d, 4) == MergeGroup(g3, "clouds");
  }

  // ---------------------------------------------------------------------------
  // Consequences for the keys of a row
  // ---------------------------------------------------------------------------

  /** Fields of `weather[0]` override everything merged before them. */
  lemma WeatherFieldsWin(d: Obj, row: Obj, k: string)
    requires NoShadowing(d) && FlattenEntry(JObj(d)) == Ok(row)
    requires k in WeatherLayer(d)
    ensures k in row && row[k] == WeatherLayer(d)[k]
  {
    FlattenIsLayered(d);
  }

  /** Otherwise a key a group supplies carries the value of the last group supplying it,
      overriding any top-level value, unless it is that group's own name. */
  lemma LastGroupWins(d: Obj, row: Obj, j: nat, k: string)
    requires NoShadowing(d) && FlattenEntry(JObj(d)) == Ok(row)
    requires j < |Groups| && k in Layer(d, Groups[j]) && k != Groups[j]
    requires k !in WeatherLayer(d)
    requires forall j' | j < j' < |Groups| :: k !in Layer(d, Groups[j'])
    ensures k in row && row[k] == Layer(d, Groups[j])[k]
  {
    FlattenIsLayered(d);
    assert j < 1 ==> k !in Layer(d, Groups[1]);
    assert j < 2 ==> k !in Layer(d, Groups[2]);
    assert j < 3 ==> k !in Layer(d, Groups[3]);
  }

  /** A top-level key that no group and not `weather[0]` mentions keeps its value. */
  lemma UntouchedKeyKept(d: Obj, row: Obj, k: string)
    requires NoShadowing(d) && FlattenEntry(JObj(d)) == Ok(row)
    requires k in d && k !in Structural
    requires forall feat | feat in Groups :: k !in Layer(d, feat)
    requires k !in WeatherLayer(d)
    ensures k in row && row[k] == d[k]
  {
    FlattenIsLayered(d);
    assert k !in Layer(d, Groups[0]) && k !in Layer(d, Groups[1]);
    assert k !in Layer(d, Groups[2]) && k !in Layer(d, Groups[3]);
  }

  /** A group's own name is gone from the row unless a later group or `weather[0]`
      supplies it again. */
  lemma GroupNamesGone(d: Obj, row: Obj)
    requires NoShadowing(d) && FlattenEntry(JObj(d)) == Ok(row)
    ensures "main" in row <==>
              "main" in Layer(d, "sys") || "main" in Layer(d, "wind") ||
              "main" in Layer(d, "clouds") || "main" in WeatherLayer(d)
    ensures "sys" in row <==>
              "sys" in Layer(d, "wind") || "sys" in Layer(d, "clouds") || "sys" in WeatherLayer(d)
    ensures "wind" in row <==> "wind" in Layer(d, "clouds") || "wind" in WeatherLayer(d)
    ensures "clouds" in row <==> "clouds" in WeatherLayer(d)
  {
    FlattenIsLayered(d);
  }

  /** A typical provider entry stamped `dt`, cut down to one or two fields per group. */
  function SampleEntry(dt: string): Obj
  {
    map[
      "dt_txt" := JStr(dt),
      "main" := JObj(map["temp" := JNum(51.3), "temp_max" := JNum(52.0)]),
      "sys" := JObj(map["pod" := JStr("n")]),
      "wind" := JObj(map["speed" := JNum(9.2)]),
      "clouds" := JObj(map["all" := JNum(100.0)]),
      "weather" := JArr([JObj(map["main" := JStr("Rain"), "description" := JStr("light rain")])])]
  }

  lemma SampleEntryLayers(dt: string)
    ensures NoShadowing(SampleEntry(dt)) && WellFormed(SampleEntry(dt))
    ensures WeatherLayer(SampleEntry(dt)) == map["main" := JStr("Rain"), "description" := JStr("light rain")]
    ensures Layer(SampleEntry(dt), "main") == map["temp" := JNum(51.3), "temp_max" := JNum(52.0)]
    ensures Layer(SampleEntry(dt), "sys") == map["pod" := JStr("n")]
    ensures Layer(SampleEntry(dt), "wind") == map["speed" := JNum(9.2)]
    ensures Layer(SampleEntry(dt), "clouds") == map["all" := JNum(100.0)]
  {
  }

  /** On it, `weather[0]` brings back a `main` key (the condition label) after the `main`
      group has been merged and deleted, and the group's own fields are kept. */
  lemma OpenWeatherEntry(dt: string)
    ensures var r := FlattenEntry(JObj(SampleEntry(dt)));
            && r.Ok?
            && "main" in r.value && r.value["main"] == JStr("Rain")
            && "temp" in r.value && r.value["temp"] == JNum(51.3)
  {
    var d := SampleEntry(dt);
    SampleEntryLayers(dt);
    FlattenIsLayered(d);
    var row := FlattenEntry(JObj(d)).value;
    WeatherFieldsWin(d, row, "main");
    LastGroupWins(d, row, 0, "temp");
  }

  /** Its row keeps the entry's stamp. */
  lemma SampleEntryStamp(dt: string)
    ensures var r := FlattenEntry(JObj(SampleEntry(dt)));
            r.Ok? && "dt_txt" in r.value && r.value["dt_txt"] == JStr(dt)
  {
    var d := SampleEntry(dt);
    SampleEntryLayers(dt);
    FlattenIsLayered(d);
    UntouchedKeyKept(d, FlattenEntry(JObj(d)).value, "dt_txt");
  }

  /** Its row has none of the group names that `weather[0]` does not bring back. */
  lemma SampleEntryGroupsGone(dt: string)
    ensures var r := FlattenEntry(JObj(SampleEntry(dt)));
            r.Ok? && "sys" !in r.value && "wind" !in r.value && "clouds" !in r.value
  {
    var d := SampleEntry(dt);
    SampleEntryLayers(dt);
    FlattenIsLayered(d);
    GroupNamesGone(d, FlattenEntry(JObj(d)).value);
  }
}

=== FILE: hours.dfy ===
/** WeatherAPI.get_hours: convert a table's timestamp column to date-times in place,
    keep the rows whose date is the requested day, and list their distinct hours in
    order of first appearance. How pandas reads a value (a date-time, NaT or
    nothing) is the parameter `decode`. */
module Hours {
  import opened Common

  datatype Date = Date(year: int, month: int, day: int)

  type Hour = h: int | 0 <= h < 24

  datatype Timestamp = Timestamp(date: Date, hour: Hour)

  /** One cell of the table: a value as the provider sent it, a date-time, or NaT. */
  datatype Cell = Value(v: Json) | Time(t: Timestamp) | NaT

  /** What pd.to_datetime reads a non-null value as: a date-time, NaT (pandas reads the
      empty string and spellings such as "NaT" or "nan" so), or nothing it can parse. */
  datatype Reading = Stamp(t: Timestamp) | NotATime | Invalid

  /** A row of the table; a column a row lacks reads as missing. */
  type Row = map<string, Cell>

  /** The table pandas builds from a list of flat records. */
  function Tabulate(records: seq<Obj>): (rows: seq<Row>)
    ensures |rows| == |records|
    ensures forall i | 0 <= i < |records| :: rows[i].Keys == records[i].Keys
    ensures forall i, k | 0 <= i < |records| && k in records[i] :: rows[i][k] == Value(records[i][k])
  {
    seq(|records|, i requires 0 <= i < |records| => map k | k in records[i] :: Value(records[i][k]))
  }

  /** `df[colname]` exists: some row has that column. */
  predicate HasColumn(rows: seq<Row>, col: string)
  {
    exists i | 0 <= i < |rows| :: col in rows[i]
  }

  /** pd.to_datetime on one cell: a missing or null cell becomes NaT, a date-time stays
      as it is, and any other value becomes what `decode` reads it as: a date-time, NaT,
      or a failure of the whole conversion. */
  function ParseCell(row: Row, col: string, decode: Json -> Reading): (r: Result<Cell>)
    ensures r.Ok? ==> r.value.Time? || r.value.NaT?
    ensures r.Err? <==>
              col in row && row[col].Value? && row[col].v != JNull && decode(row[col].v) == Invalid
    ensures col !in row || row[col].NaT? || row[col] == Value(JNull) ==> r == Ok(NaT)
    ensures col in row && row[col].Value? && row[col].v != JNull && decode(row[col].v) == NotATime ==>
              r == Ok(NaT)
    ensures col in row && row[col].Time? ==> r == Ok(row[col])
    ensures col in row && row[col].Value? && decode(row[col].v).Stamp? && row[col].v != JNull ==>
              r == Ok(Time(decode(row[col].v).t))
  {
    if col !in row then Ok(NaT)
    else match row[col]
      case NaT => Ok(NaT)
      case Time(t) => Ok(Time(t))
      case Value(j) =>
        if j == JNull then Ok(NaT)
        else match decode(j)
          case Stamp(t) => Ok(Time(t))
          case NotATime => Ok(NaT)
          case Invalid => Err(Unparseable)
  }

  /** The converted column written back into every row, over the rows in order. */
  function ParseRows(rows: seq<Row>, col: string, decode: Json -> Reading): (r: Result<seq<Row>>)
    ensures r.Ok? ==> |r.value| == |rows|
    ensures r.Err? ==> r.error == Unparseable
  {
    if rows == [] then Ok([])
    else
      var last := |rows| - 1;
      var init :- ParseRows(rows[..last], col, decode);
      var c :- ParseCell(rows[last], col, decode);
      Ok(init + [rows[last][col := c]])
  }

  /** `df[colname] = pd.to_datetime(df[colname])`: a missing column raises KeyError. */
  function ConvertColumn(rows: seq<Row>, col: string, decode: Json -> Reading): (r: Result<seq<Row>>)
    ensures r.Err? <==> !HasColumn(rows, col) || exists i | 0 <= i < |rows| :: ParseCell(rows[i], col, decode).Err?
    ensures r.Err? ==> r.error == (if HasColumn(rows, col) then Unparseable else MissingKey(col))
    ensures r.Ok? ==> |r.value| == |rows|
  {
    if !HasColumn(rows, col) then Err(MissingKey(col))
    else
      ParseRowsSpec(rows, col, decode);
      ParseRows(rows, col, decode)
  }

  /** The row's timestamp is a date-time on `day`. */
  predicate OnDay(row: Row, col: string, day: Date)
  {
    col in row && row[col].Time? && row[col].t.date == day
  }

  /** `df[df[colname].dt.date == day][colname].dt.hour`: the hours of the matching rows,
      in row order. */
  function MatchedHours(rows: seq<Row>, col: string, day: Date): (hs: seq<Hour>)
    ensures |hs| <= |rows|
  {
    if rows == [] then []
    else
      var last := |rows| - 1;
      var init := MatchedHours(rows[..last], col, day);
      if OnDay(rows[last], col, day) then init + [rows[last][col].t.hour] else init
  }

  /** pandas `unique`: each value once, at its first appearance. */
  function Unique(s: seq<Hour>): (u: seq<Hour>)
    ensures |u| <= |s|
    ensures forall h | h in u :: h in s
  {
    if s == [] then []
    else
      var u := Unique(s[..|s| - 1]);
      if s[|s| - 1] in u then u else u + [s[|s| - 1]]
  }

  /** The list get_hours returns. */
  function DistinctHours(rows: seq<Row>, col: string, day: Date): seq<Hour>
  {
    Unique(MatchedHours(rows, col, day))
  }

  /** The DataFrame handed to get_hours; get_hours replaces its timestamp column. */
  class Frame {
    var rows: seq<Row>

    constructor FromRecords(records: seq<Obj>)
      ensures rows == Tabulate(records)
    {
      rows := Tabulate(records);
    }

    /** get_hours(df, colname, day): on success the column is replaced by its date-times
        and the distinct hours on `day` are returned; on each failure the model has (a
        missing column, an unparseable cell) the table is untouched. */
    method Hours(col: string, day: Date, decode: Json -> Reading) returns (r: Result<seq<Hour>>)
      modifies this
      ensures var c := ConvertColumn(old(rows), col, decode);
              if c.Err? then r == Err(c.error) && rows == old(rows)
              else rows == c.value && r == Ok(DistinctHours(rows, col, day))
    {
      var converted := ConvertColumn(rows, col, decode);
      if converted.Err? {
        return Err(converted.error);
      }
      rows := converted.value;
      r := Ok(DistinctHours(rows, col, day));
    }
  }

  // ---------------------------------------------------------------------------
  // The column conversion
  // ---------------------------------------------------------------------------

  /** The conversion fails exactly when a present, non-null value reads as nothing
      pandas can parse; otherwise it keeps the row count and changes only the column, in every row. */
  lemma {:induction false} ParseRowsSpec(rows: seq<Row>, col: string, decode: Json -> Reading)
    ensures ParseRows(rows, col, decode).Ok? <==>
              forall i | 0 <= i < |rows| :: ParseCell(rows[i], col, decode).Ok?
    ensures ParseRows(rows, col, decode).Ok? ==>
              var out := ParseRows(rows, col, decode).value;
              && |out| == |rows|
              && forall i | 0 <= i < |rows| ::
                   out[i] == rows[i][col := ParseCell(rows[i], col, decode).value]
    decreases |rows|
  {
    if rows != [] {
      var last := |rows| - 1;
      var init := rows[..last];
      ParseRowsSpec(init, col, decode);
      assert forall i | 0 <= i < last :: init[i] == rows[i];
    }
  }

  /** Converting an already converted column changes nothing. */
  lemma ConvertColumnIdempotent(rows: seq<Row>, col: string, decode: Json -> Reading)
    requires ConvertColumn(rows, col, decode).Ok?
    ensures var out := ConvertColumn(rows, col, decode).value;
            ConvertColumn(out, col, decode) == Ok(out)
  {
    var out := ConvertColumn(rows, col, decode).value;
    ParseRowsSpec(rows, col, decode);
    ParseRowsSpec(out, col, decode);
    forall i | 0 <= i < |out|
      ensures col in out[i] && ParseCell(out[i], col, decode) == Ok(out[i][col])
    {
    }
    assert HasColumn(out, col) by {
      var i :| 0 <= i < |rows| && col in rows[i];
      assert col in out[i];
    }
    ParseRowsUnchanged(out, col, decode);
  }

  /** A cell pandas reads as NaT (say, an empty `dt_txt`) does not make the conversion
      fail: its row keeps NaT and so falls on no day. */
  lemma NotATimeOnNoDay(rows: seq<Row>, col: string, decode: Json -> Reading, i: nat)
    requires ConvertColumn(rows, col, decode).Ok?
    requires i < |rows| && col in rows[i] && rows[i][col].Value? && rows[i][col].v != JNull
    requires decode(rows[i][col].v) == NotATime
    ensures var out := ConvertColumn(rows, col, decode).value;
            col in out[i] && out[i][col] == NaT && forall day :: !OnDay(out[i], col, day)
  {
    ParseRowsSpec(rows, col, decode);
  }

  /** A column whose every cell is already in converted form converts to itself. */
  lemma ParseRowsUnchanged(rows: seq<Row>, col: string, decode: Json -> Reading)
    requires forall i | 0 <= i < |rows| :: col in rows[i] && ParseCell(rows[i], col, decode) == Ok(rows[i][col])
    ensures ParseRows(rows, col, decode) == Ok(rows)
  {
    ParseRowsSpec(rows, col, decode);
    var out := ParseRows(rows, col, decode).value;
    forall i | 0 <= i < |rows|
      ensures out[i] == rows[i]
    {
      assert rows[i][col := rows[i][col]] == rows[i];
    }
    assert out == rows;
  }

  // ---------------------------------------------------------------------------
  // Filtering by day
  // ---------------------------------------------------------------------------

  /** The filter is sound and complete: an hour is listed exactly when some row on `day`
      has it. */
  lemma {:induction false} MatchedHoursSpec(rows: seq<Row>, col: string, day: Date)
    ensures forall h: Hour :: h in MatchedHours(rows, col, day) <==>
              exists i | 0 <= i < |rows| :: OnDay(rows[i], col, day) && rows[i][col].t.hour == h
    decreases |rows|
  {
    if rows != [] {
      var last := |rows| - 1;
      var init := rows[..last];
      MatchedHoursSpec(init, col, day);
      assert forall i | 0 <= i < last :: init[i] == rows[i];
      forall h: Hour
        ensures h in MatchedHours(rows, col, day) <==>
                exists i | 0 <= i < |rows| :: OnDay(rows[i], col, day) && rows[i][col].t.hour == h
      {
        if exists i | 0 <= i < |rows| :: OnDay(rows[i], col, day) && rows[i][col].t.hour == h {
          var i :| 0 <= i < |rows| && OnDay(rows[i], col, day) && rows[i][col].t.hour == h;
          if i < last {
            assert OnDay(init[i], col, day) && init[i][col].t.hour == h;
          }
        }
      }
    }
  }

  /** The filter lists one hour per row on `day`. */
  lemma {:induction false} MatchedHoursCount(rows: seq<Row>, col: string, day: Date)
    ensures |MatchedHours(rows, col, day)| == |set i | 0 <= i < |rows| && OnDay(rows[i], col, day)|
    decreases |rows|
  {
    if rows != [] {
      var last := |rows| - 1;
      var init := rows[..last];
      MatchedHoursCount(init, col, day);
      var before := set i | 0 <= i < last && OnDay(init[i], col, day);
      var now := set i | 0 <= i < |rows| && OnDay(rows[i], col, day);
      assert forall i | 0 <= i < last :: init[i] == rows[i];
      if OnDay(rows[last], col, day) {
        assert now == before + {last};
      } else {
        assert now == before;
      }
    }
  }

  /** `h` is the hour of some row on `day`. */
  predicate HourOnDay(rows: seq<Row>, col: string, day: Date, h: Hour)
  {
    exists i | 0 <= i < |rows| :: OnDay(rows[i], col, day) && rows[i][col].t.hour == h
  }

  /** The first row on `day` whose hour is `h`. */
  function FirstRow(rows: seq<Row>, col: string, day: Date, h: Hour): (i: nat)
    requires HourOnDay(rows, col, day, h)
    ensures i < |rows| && OnDay(rows[i], col, day) && rows[i][col].t.hour == h
    ensures forall j | 0 <= j < i :: !(OnDay(rows[j], col, day) && rows[j][col].t.hour == h)
  {
    if OnDay(rows[0], col, day) && rows[0][col].t.hour == h then 0
    else
      assert HourOnDay(rows[1..], col, day, h) by {
        var i :| 0 <= i < |rows| && OnDay(rows[i], col, day) && rows[i][col].t.hour == h;
        assert rows[1..][i - 1] == rows[i];
      }
      1 + FirstRow(rows[1..], col, day, h)
  }

  /** A prefix that already has a row on `day` with hour `h` has the same first such row. */
  lemma FirstRowPrefix(rows: seq<Row>, col: string, day: Date, h: Hour, k: nat)
    requires k <= |rows| && HourOnDay(rows[..k], col, day, h)
    ensures HourOnDay(rows, col, day, h) && FirstRow(rows, col, day, h) == FirstRow(rows[..k], col, day, h)
  {
    assert forall j | 0 <= j < k :: rows[..k][j] == rows[j];
    var i := FirstRow(rows[..k], col, day, h);
    assert OnDay(rows[i], col, day);
  }

  /** An hour no earlier row on `day` has is first met at the last row. */
  lemma FirstRowLast(rows: seq<Row>, col: string, day: Date, h: Hour)
    requires HourOnDay(rows, col, day, h) && !HourOnDay(rows[..|rows| - 1], col, day, h)
    ensures var last := |rows| - 1;
            && FirstRow(rows, col, day, h) == last
            && OnDay(rows[last], col, day) && rows[last][col].t.hour == h
  {
    var last := |rows| - 1;
    assert forall j | 0 <= j < last :: rows[..last][j] == rows[j];
  }

  /** A row on `day` whose hour no earlier row on `day` has adds that hour at the end of
      the filtered list. */
  lemma MatchedHoursNew(rows: seq<Row>, col: string, day: Date, h: Hour)
    requires HourOnDay(rows, col, day, h) && !HourOnDay(rows[..|rows| - 1], col, day, h)
    ensures var m := MatchedHours(rows[..|rows| - 1], col, day);
            && h !in m && MatchedHours(rows, col, day) == m + [h]
            && FirstIndex(MatchedHours(rows, col, day), h) == |m|
  {
    var m := MatchedHours(rows[..|rows| - 1], col, day);
    FirstRowLast(rows, col, day, h);
    MatchedHoursSpec(rows[..|rows| - 1], col, day);
    assert (m + [h])[|m|] == h && (m + [h])[..|m|] == m;
  }

  /** The filter keeps row order: of two hours of rows on `day`, the first to appear in
      the filtered list is the one whose first row on `day` comes first. */
  lemma {:induction false} MatchedHoursOrder(rows: seq<Row>, col: string, day: Date, h1: Hour, h2: Hour)
    requires HourOnDay(rows, col, day, h1) && HourOnDay(rows, col, day, h2)
    ensures h1 in MatchedHours(rows, col, day) && h2 in MatchedHours(rows, col, day)
    ensures FirstIndex(MatchedHours(rows, col, day), h1) < FirstIndex(MatchedHours(rows, col, day), h2) <==>
            FirstRow(rows, col, day, h1) < FirstRow(rows, col, day, h2)
    decreases |rows|
  {
    var last := |rows| - 1;
    var init := rows[..last];
    var m := MatchedHours(init, col, day);
    if HourOnDay(init, col, day, h1) && HourOnDay(init, col, day, h2) {
      MatchedHoursOrder(init, col, day, h1, h2);
      FirstRowPrefix(rows, col, day, h1, last);
      FirstRowPrefix(rows, col, day, h2, last);
      if OnDay(rows[last], col, day) {
        FirstIndexAppend(m, rows[last][col].t.hour, h1);
        FirstIndexAppend(m, rows[last][col].t.hour, h2);
      }
    } else if !HourOnDay(init, col, day, h2) {
      FirstRowLast(rows, col, day, h2);
      MatchedHoursNew(rows, col, day, h2);
      if HourOnDay(init, col, day, h1) {
        FirstRowPrefix(rows, col, day, h1, last);
        MatchedHoursSpec(init, col, day);
        FirstIndexAppend(m, h2, h1);
      } else {
        FirstRowLast(rows, col, day, h1);
      }
    } else {
      FirstRowLast(rows, col, day, h1);
      MatchedHoursNew(rows, col, day, h1);
      FirstRowPrefix(rows, col, day, h2, last);
      MatchedHoursSpec(init, col, day);
      FirstIndexAppend(m, h1, h2);
    }
  }

  // ---------------------------------------------------------------------------
  // Unique
  // ---------------------------------------------------------------------------

  /** The position of the first occurrence of `h` in `s`. */
  function FirstIndex(s: seq<Hour>, h: Hour): (i: nat)
    requires h in s
    ensures i < |s| && s[i] == h && h !in s[..i]
  {
    if s[0] == h then 0
    else
      var j := FirstIndex(s[1..], h);
      assert s[1..][..j] == s[1..j + 1];
      1 + j
  }

  /** Appending an element does not move the first occurrence of anything already there. */
  lemma FirstIndexAppend(s: seq<Hour>, x: Hour, h: Hour)
    requires h in s
    ensures FirstIndex(s + [x], h) == FirstIndex(s, h)
  {
    var j := FirstIndex(s, h);
    assert (s + [x])[..j] == s[..j];
    assert (s + [x])[j] == h;
  }

  /** `Unique` keeps exactly the values of its input, each once, ordered by where each
      first appears. */
  lemma {:induction false} UniqueSpec(s: seq<Hour>)
    ensures forall h: Hour :: h in Unique(s) <==> h in s
    ensures forall a, b | 0 <= a < b < |Unique(s)| :: Unique(s)[a] != Unique(s)[b]
    ensures forall a, b | 0 <= a < b < |Unique(s)| ::
              FirstIndex(s, Unique(s)[a]) < FirstIndex(s, Unique(s)[b])
    decreases |s|
  {
    if s != [] {
      var t, x := s[..|s| - 1], s[|s| - 1];
      assert s == t + [x];
      UniqueSpec(t);
      var u := Unique(t);
      forall h | h in u
        ensures FirstIndex(s, h) == FirstIndex(t, h)
      {
        FirstIndexAppend(t, x, h);
      }
      if x !in u {
        assert FirstIndex(s, x) == |t|;
        assert Unique(s) == u + [x];
        forall a, b | 0 <= a < b < |Unique(s)|
          ensures FirstIndex(s, Unique(s)[a]) < FirstIndex(s, Unique(s)[b])
        {
          if b < |u| {
            assert Unique(s)[a] == u[a] && Unique(s)[b] == u[b];
          } else {
            assert Unique(s)[a] == u[a] && u[a] in t;
          }
        }
      }
    }
  }

  // ---------------------------------------------------------------------------
  // What get_hours returns
  // ---------------------------------------------------------------------------

  /** The hours come in the order of their first rows on `day`, whatever their values:
      get_hours does not sort them. */
  lemma DistinctHoursOrder(rows: seq<Row>, col: string, day: Date)
    ensures forall a, b | 0 <= a < b < |DistinctHours(rows, col, day)| ::
              && HourOnDay(rows, col, day, DistinctHours(rows, col, day)[a])
              && HourOnDay(rows, col, day, DistinctHours(rows, col, day)[b])
              && FirstRow(rows, col, day, DistinctHours(rows, col, day)[a])
                 < FirstRow(rows, col, day, DistinctHours(rows, col, day)[b])
  {
    var m := MatchedHours(rows, col, day);
    var hs := Unique(m);
    MatchedHoursSpec(rows, col, day);
    UniqueSpec(m);
    forall a, b | 0 <= a < b < |hs|
      ensures && HourOnDay(rows, col, day, hs[a]) && HourOnDay(rows, col, day, hs[b])
              && FirstRow(rows, col, day, hs[a]) < FirstRow(rows, col, day, hs[b])
    {
      assert hs[a] in hs && hs[b] in hs;
      MatchedHoursOrder(rows, col, day, hs[a], hs[b]);
    }
  }

  /** Every listed hour is the hour of a row on `day`; every such row's hour is listed
      exactly once; the hours come in the order they first appear in the filtered list
      (`DistinctHoursOrder` states that order in terms of rows); and nothing is listed
      when no row falls on `day`. */
  lemma DistinctHoursSpec(rows: seq<Row>, col: string, day: Date)
    ensures forall h: Hour :: h in DistinctHours(rows, col, day) <==>
              exists i | 0 <= i < |rows| :: OnDay(rows[i], col, day) && rows[i][col].t.hour == h
    ensures var hs := DistinctHours(rows, col, day);
            forall a, b | 0 <= a < b < |hs| :: hs[a] != hs[b]
    ensures forall h: Hour :: h in DistinctHours(rows, col, day) <==> h in MatchedHours(rows, col, day)
    ensures var hs := DistinctHours(rows, col, day);
            forall a, b | 0 <= a < b < |hs| ::
              FirstIndex(MatchedHours(rows, col, day), hs[a]) < FirstIndex(MatchedHours(rows, col, day), hs[b])
    ensures DistinctHours(rows, col, day) == [] <==> forall i | 0 <= i < |rows| :: !OnDay(rows[i], col, day)
  {
    var hs := DistinctHours(rows, col, day);
    MatchedHoursSpec(rows, col, day);
    UniqueSpec(MatchedHours(rows, col, day));
    if exists i | 0 <= i < |rows| :: OnDay(rows[i], col, day) {
      var i :| 0 <= i < |rows| && OnDay(rows[i], col, day);
      assert rows[i][col].t.hour in hs;
    }
    if hs != [] {
      assert hs[0] in hs;
    }
  }

  /** Three rows as text: two on the first of May, at 03:00 and 06:00, and one on the
      second, at 00:00. */
  function SampleRows(): seq<Row>
  {
    [map["dt_txt" := Value(JStr("2024-05-01 03:00:00"))],
     map["dt_txt" := Value(JStr("2024-05-01 06:00:00"))],
     map["dt_txt" := Value(JStr("2024-05-02 00:00:00"))]]
  }

  /** The same rows after the conversion. */
  function SampleConverted(): seq<Row>
  {
    [map["dt_txt" := Time(Timestamp(Date(2024, 5, 1), 3))],
     map["dt_txt" := Time(Timestamp(Date(2024, 5, 1), 6))],
     map["dt_txt" := Time(Timestamp(Date(2024, 5, 2), 0))]]
  }

  /** A decoder that reads the three texts as the date-times they spell. */
  predicate ReadsSample(decode: Json -> Reading)
  {
    && decode(JStr("2024-05-01 03:00:00")) == Stamp(Timestamp(Date(2024, 5, 1), 3))
    && decode(JStr("2024-05-01 06:00:00")) == Stamp(Timestamp(Date(2024, 5, 1), 6))
    && decode(JStr("2024-05-02 00:00:00")) == Stamp(Timestamp(Date(2024, 5, 2), 0))
  }

  lemma SampleConverts(decode: Json -> Reading)
    requires ReadsSample(decode)
    ensures ConvertColumn(SampleRows(), "dt_txt", decode) == Ok(SampleConverted())
  {
    var rows, out := SampleRows(), SampleConverted();
    assert HasColumn(rows, "dt_txt") by {
      assert "dt_txt" in rows[0];
    }
    forall i | 0 <= i < 3
      ensures ParseCell(rows[i], "dt_txt", decode) == Ok(out[i]["dt_txt"])
      ensures rows[i]["dt_txt" := out[i]["dt_txt"]] == out[i]
    {
    }
    ParseRowsSpec(rows, "dt_txt", decode);
    var parsed := ParseRows(rows, "dt_txt", decode);
    assert parsed.Ok? && |parsed.value| == 3;
    assert forall i | 0 <= i < 3 :: parsed.value[i] == out[i];
    assert parsed.value == out;
  }

  lemma SampleHours()
    ensures DistinctHours(SampleConverted(), "dt_txt", Date(2024, 5, 1)) == [3, 6]
  {
    var out, day := SampleConverted(), Date(2024, 5, 1);
    assert MatchedHours(out[..1], "dt_txt", day) == [3] by {
      assert out[..1][..0] == [] && out[..1][0] == out[0];
    }
    assert MatchedHours(out[..2], "dt_txt", day) == [3, 6] by {
      assert out[..2][..1] == out[..1] && out[..2][1] == out[1];
    }
    assert MatchedHours(out, "dt_txt", day) == [3, 6] by {
      assert out[..|out| - 1] == out[..2] && !OnDay(out[2], "dt_txt", day);
    }
    assert Unique([3, 6]) == [3, 6] by {
      assert [3, 6][..1] == [3];
    }
  }

  /** The hours are not sorted: rows at 06:00, 03:00 and again 06:00 on the first of May
      give 6 before 3, each once. */
  lemma HoursInRowOrder()
    ensures var at := (h: Hour) => map["dt_txt" := Time(Timestamp(Date(2024, 5, 1), h))];
            DistinctHours([at(6), at(3), at(6)], "dt_txt", Date(2024, 5, 1)) == [6, 3]
  {
    var at := (h: Hour) => map["dt_txt" := Time(Timestamp(Date(2024, 5, 1), h))];
    var rows, day := [at(6), at(3), at(6)], Date(2024, 5, 1);
    assert rows[..2][..1] == rows[..1] && rows[..1][..0] == [] && rows[..3] == rows;
    assert rows[..1][0] == rows[0] && rows[..2][1] == rows[1];
    assert MatchedHours(rows[..1], "dt_txt", day) == [6];
    assert MatchedHours(rows[..2], "dt_txt", day) == [6, 3];
    assert MatchedHours(rows, "dt_txt", day) == [6, 3, 6];
    assert Unique([6, 3, 6]) == [6, 3] by {
      assert [6, 3, 6][..2] == [6, 3] && [6, 3][..1] == [6];
    }
  }

  /** `dt_txt` texts, as the provider formats them, on the first and second of May: the hours for the first are 3 and
      6, in that order, and a day with no rows gives no hours. */
  lemma TwoHoursOnTheDay(decode: Json -> Reading)
    requires ReadsSample(decode)
    ensures var c := ConvertColumn(SampleRows(), "dt_txt", decode);
            && c.Ok?
            && DistinctHours(c.value, "dt_txt", Date(2024, 5, 1)) == [3, 6]
            && DistinctHours(c.value, "dt_txt", Date(2024, 5, 3)) == []
  {
    SampleConverts(decode);
    SampleHours();
    DistinctHoursSpec(SampleConverted(), "dt_txt", Date(2024, 5, 3));
  }
}

=== FILE: roundtrip.dfy ===
/** get_forecast followed by get_hours on the `dt_txt` column, as the dashboard chains
    them: a provider response with two entries on the same day yields those two hours,
    in the provider's order. */
module RoundTrip {
  import opened Common
  import opened Forecast
  import opened Hours

  /** A provider response with two entries, three hours apart on the first of May. */
  function MockResponse(): Json
  {
    JObj(map[
      "cnt" := JNum(2.0),
      "list" := JArr([JObj(SampleEntry("2024-05-01 03:00:00")), JObj(SampleEntry("2024-05-01 06:00:00"))])])
  }

  /** A decoder that reads the two stamps as the date-times they spell. */
  predicate ReadsMock(decode: Json -> Reading)
  {
    && decode(JStr("2024-05-01 03:00:00")) == Stamp(Timestamp(Date(2024, 5, 1), 3))
    && decode(JStr("2024-05-01 06:00:00")) == Stamp(Timestamp(Date(2024, 5, 1), 6))
  }

  /** The flattened rows of the mock response carry the two stamps, in order. */
  lemma MockRows()
    ensures var f := Forecast.Forecast(MockResponse());
            && f.Ok? && |f.value| == 2
            && "dt_txt" in f.value[0] && f.value[0]["dt_txt"] == JStr("2024-05-01 03:00:00")
            && "dt_txt" in f.value[1] && f.value[1]["dt_txt"] == JStr("2024-05-01 06:00:00")
  {
    var entries := [JObj(SampleEntry("2024-05-01 03:00:00")), JObj(SampleEntry("2024-05-01 06:00:00"))];
    assert Entries(MockResponse()) == Ok(entries);
    SampleEntryStamp("2024-05-01 03:00:00");
    SampleEntryStamp("2024-05-01 06:00:00");
    FlattenAllRows(entries);
  }

  /** Two tabulated records stamped 03:00 and 06:00 on the first of May convert to
      rows holding those date-times, whatever their other columns. */
  lemma StampedConverts(rows: seq<Obj>, decode: Json -> Reading)
    requires ReadsMock(decode)
    requires |rows| == 2
    requires "dt_txt" in rows[0] && rows[0]["dt_txt"] == JStr("2024-05-01 03:00:00")
    requires "dt_txt" in rows[1] && rows[1]["dt_txt"] == JStr("2024-05-01 06:00:00")
    ensures var c := ConvertColumn(Tabulate(rows), "dt_txt", decode);
            && c.Ok? && |c.value| == 2
            && "dt_txt" in c.value[0] && c.value[0]["dt_txt"] == Time(Timestamp(Date(2024, 5, 1), 3))
            && "dt_txt" in c.value[1] && c.value[1]["dt_txt"] == Time(Timestamp(Date(2024, 5, 1), 6))
  {
    var table := Tabulate(rows);
    assert table[0]["dt_txt"] == Value(JStr("2024-05-01 03:00:00"));
    assert table[1]["dt_txt"] == Value(JStr("2024-05-01 06:00:00"));
    assert HasColumn(table, "dt_txt") by {
      assert "dt_txt" in table[0];
    }
    ParseRowsSpec(table, "dt_txt", decode);
  }

  /** Two rows at 03:00 and 06:00 on the first of May give those hours, in row order. */
  lemma StampedHours(out: seq<Row>)
    requires |out| == 2
    requires "dt_txt" in out[0] && out[0]["dt_txt"] == Time(Timestamp(Date(2024, 5, 1), 3))
    requires "dt_txt" in out[1] && out[1]["dt_txt"] == Time(Timestamp(Date(2024, 5, 1), 6))
    ensures DistinctHours(out, "dt_txt", Date(2024, 5, 1)) == [3, 6]
  {
    var day := Date(2024, 5, 1);
    assert out[..1][..0] == [] && out[..2] == out;
    assert out[..1][0] == out[0];
    assert MatchedHours(out[..1], "dt_txt", day) == [3];
    assert MatchedHours(out, "dt_txt", day) == [3, 6];
    assert Unique([3, 6]) == [3, 6] by {
      assert [3, 6][..1] == [3];
    }
  }

  /** The round trip: both hours of the response, in provider order. */
  lemma ForecastThenHours(decode: Json -> Reading)
    requires ReadsMock(decode)
    ensures Forecast.Forecast(MockResponse()).Ok?
    ensures var table := Tabulate(Forecast.Forecast(MockResponse()).value);
            var c := ConvertColumn(table, "dt_txt", decode);
            c.Ok? && DistinctHours(c.value, "dt_txt", Date(2024, 5, 1)) == [3, 6]
  {
    MockRows();
    var rows := Forecast.Forecast(MockResponse()).value;
    StampedConverts(rows, decode);
    StampedHours(ConvertColumn(Tabulate(rows), "dt_txt", decode).value);
  }
}
